=== FILE: README.md ===
# node-thermostat control loop and temperature smoothing, in Dafny

This project models the core of node-thermostat. The core is a bang-bang thermostat that
switches a furnace (Heating) or an air conditioner (Cooling) on and off around a target
temperature. It has these parts:

- a fixed 1-degree deadband;
- an overshoot margin recomputed each time the start gate passes, even while the equipment runs;
- a failsafe that stops a run longer than `MaxRunTime` when a reading still favours a start;
- a minimum rest between runs (`MinDelayBetweenRuns`);
- a moving-average filter that smooths the sensor's readings before the loop sees them.

Modules:

- `Configuration`: the configuration record and its mode-selected getters. `TargetRange` is the heating or cooling range. `DefaultTarget` is the bottom of the heating range or the top of the cooling range.
- `Events`: the event record (type, topic, message) and the effects of one step. An effect is a trigger `start()`/`stop()` call, an event delivered to the observers, or the completion signal. The module also holds the trace predicates that state "starts and stops alternate".
- `Thermostat`: the current control loop as pure step functions. Each operation takes the state, the request and the clock reading `now` (milliseconds) of the step. It returns the next state and the effects it emitted, in order. The undefined overshoot margin before the first start is `None`, and the start and stop times are optional.
- `ThermostatProperties`: the hysteresis rules for each mode, the start gate, the failsafe, and what `setMode` does to running equipment.
- `LegacyThermostat`: the earlier control loop, with its decision code shared with the current one, and proofs that both reach the same states and make the same trigger calls.
- `Averages`: sums and means of readings.
- `WindowedTempReader`: the current filter, a count-N sliding window with step 1, divided by the fixed N.
- `BufferedTempReader` and `RootTempReader`: the two earlier filters. Each keeps a bounded buffer (push, then shift once the buffer is longer than N) and takes an incremental mean.

Temperatures are exact reals. Times are integers. Clock reads, trigger hardware, observers
and sensors are not called: the clock is the `now` parameter, the sensor is a sequence of
readings, and calls and deliveries are effects in the step's output.

The source's configuration interface for the control loop (`src/core/configuration.ts`) is
not part of this model. Its two timing fields, `maxRunTime` and `minDelayBetweenRuns`, are
fields of `Config` next to the four fields of `src/configuration.ts`.

## Model

| member | source | states |
|---|---|---|
| Configuration.Config.TargetRange | src/configuration.ts:21-23 | the target range is the heating range in Heating and the cooling range in Cooling; it is ordered whenever both ranges are |
| Configuration.Config.DefaultTarget | src/configuration.ts:25-27 | the default target is the heating range's lower bound in Heating and the cooling range's upper bound in Cooling; with ordered ranges it lies inside the current target range |
| Configuration.GettersFollowMode | src/configuration.ts:21-27 | both getters depend only on the mode and the two ranges, so setting the mode switches both together |
| Thermostat.WithinBounds | src/core/thermostat.ts:135-137 | a request is within bounds exactly when the range contains it, and exactly then does `setTarget` store it unchanged |
| Thermostat.Clamp | src/core/thermostat.ts:109-119 | an in-range request is kept, a request below the range becomes its minimum, one above becomes its maximum; with an ordered range the result is always in range |
| Thermostat.Construct | src/core/thermostat.ts:21-31 | a new thermostat is idle, has never run, has no overshoot margin, drives the trigger of its mode, and has the mode's default target |
| Thermostat.SetTarget | src/core/thermostat.ts:107-123 | only the target changes; repeating the current raw value changes nothing and emits nothing; any other value is clamped and emits exactly one target event carrying the raw value; the state invariant is kept |
| Thermostat.SetMode | src/core/thermostat.ts:129-133 | mode and trigger follow the new mode and the target becomes its default; start time, stop time and overshoot are untouched, so running equipment keeps running; a target event is emitted iff the default differs from the old target |
| Thermostat.OvershootFor | src/core/thermostat.ts:59 | the margin never exceeds `MaxOvershootTemp` and is either that cap or the distance between target and reading |
| Thermostat.StartTrigger | src/core/thermostat.ts:86-92 | afterwards the equipment runs; on running equipment nothing happens; otherwise only the start time changes, set to `now`, and the effects are one start call followed by the "on" event |
| Thermostat.RunningFlag | src/core/thermostat.ts:103-105 | `isRunning()` holds after every start and fails after every stop; starting running equipment keeps its start time |
| Thermostat.FirstRunFlag | src/core/thermostat.ts:139-141 | `isFirstRun()` is unchanged by a start and holds after a stop only when nothing was running and nothing had stopped before |
| Thermostat.StopTrigger | src/core/thermostat.ts:94-101 | afterwards the equipment is idle; on idle equipment nothing happens; otherwise the start time is cleared, the stop time becomes `now`, and the effects are one stop call followed by the "off" event |
| Thermostat.TryStartTrigger | src/core/thermostat.ts:53-62 | configuration, target and trigger are unchanged; the trigger calls alternate starting from the running state and the on/off events match them one for one |
| Thermostat.Decide | src/core/thermostat.ts:64-82 | the same facts for the hysteresis branch of a reading |
| Thermostat.TempReceived | src/core/thermostat.ts:64-84 | every reading ends with exactly one temperature event and no other temperature event precedes it; configuration, target and trigger are unchanged; calls alternate and the on/off events match them |
| Thermostat.Apply | src/core/thermostat.ts:37-47 | any single request or reading keeps calls alternating with matching on/off events and keeps the state invariant |
| Thermostat.Run | src/core/thermostat.ts:37-47 | over any sequence of requests and readings, calls alternate from the initial running state and the state invariant holds throughout |
| Thermostat.Session | src/core/thermostat.ts:40-44 | from construction, the trigger calls go start, stop, start, ... (call i is a start iff i is even), the on/off events follow the same pattern, and the completion signal comes last |
| ThermostatProperties.HeatingRules | src/core/thermostat.ts:66-73 | in Heating, a reading below target - 1 starts idle equipment iff the gate is open, with margin min(target - reading, cap); otherwise a reading at or above target + margin stops running equipment; otherwise nothing but the temperature event happens |
| ThermostatProperties.CoolingRules | src/core/thermostat.ts:74-81 | the mirror image for Cooling: above target + 1 a start is attempted, at or below target - margin running equipment stops |
| ThermostatProperties.ReadingOutcome | src/core/thermostat.ts:64-84 | the three outcomes of a reading (started, stopped, unchanged) in terms of the start and stop conditions, for either mode |
| ThermostatProperties.OvershootRecomputedWhileRunning | src/core/thermostat.ts:58-61 | when the gate passes while running, the margin is recomputed from the new reading but nothing is started and the start time is kept |
| ThermostatProperties.UndefinedOvershootNeverStops | src/core/thermostat.ts:70-79 | before any start the margin is undefined, so the stop comparison is false and a reading that does not favour a start changes nothing |
| ThermostatProperties.FailsafeStops | src/core/thermostat.ts:53-56 | a start-favouring reading more than `MaxRunTime` after the start stops the equipment with stop time `now`; with a non-negative rest period it is not restarted in the same step |
| ThermostatProperties.StartGate | src/core/thermostat.ts:53-62 | the failsafe stop records `now` as stop time; when the equipment never stopped or stopped strictly more than `MinDelayBetweenRuns` ago, the margin is recomputed from the reading and the equipment runs; otherwise the state is what the failsafe left |
| ThermostatProperties.GateShutAfterRecentStop | src/core/thermostat.ts:58 | within the rest period the start attempt does at most the failsafe stop |
| ThermostatProperties.DecideAfterRecentStop | src/core/thermostat.ts:64-82 | within the rest period a reading either does nothing or stops the equipment |
| ThermostatProperties.NoRestartTooSoon | src/core/thermostat.ts:58 | no reading at or before stop time + `MinDelayBetweenRuns` issues a start call, and idle equipment stays idle |
| ThermostatProperties.SetModeLeavesEquipmentRunning | src/core/thermostat.ts:129-133 | changing mode never stops running equipment, and the next stop goes to the new mode's trigger |
| ThermostatProperties.FurnaceLeftRunningAfterSwitchToCooling | src/core/thermostat.ts:132 | after a switch to Cooling with the furnace running, the next stop is sent to the air conditioner and never to the furnace |
| ThermostatProperties.SetTargetRepeated | src/core/thermostat.ts:108 | re-requesting an in-range value emits nothing the second time, while re-requesting an out-of-range value emits its event again, because the raw request never equals the clamped target |
| Events.TriggerEvent | src/core/thermostat.ts:143-153 | the on/off event is a message with topic ["thermostat", "furnace"] in Heating and ["thermostat", "ac"] in Cooling; it is a switch event and not a temperature event; its message is "on" exactly for a start |
| Events.TemperatureEvent | src/core/thermostat.ts:155-161 | the temperature event is a message on the sensors' temperature topic, not a switch event, and carries the reading |
| Events.TargetEvent | src/core/thermostat.ts:163-169 | the target event is a message with topic ["thermostat", "target"], neither a switch nor a temperature event, and carries the requested value |
| LegacyThermostat.Calls | src/thermostat.ts:139-145 | with nobody to deliver to, no event remains and the result is no longer than the input; `CallsMembers` says which effects remain |
| LegacyThermostat.CallsAppend | src/thermostat.ts:139-145 | dropping the events of a concatenation drops them from each part, so the remaining calls keep their order |
| LegacyThermostat.CallsSingle | src/thermostat.ts:139-145 | a single effect is dropped iff it is an event and kept iff it is a trigger call; with the previous row this fixes exactly what remains |
| LegacyThermostat.CallsMembers | src/thermostat.ts:139-145 | an effect remains iff it is one of the original trigger calls |
| LegacyThermostat.CallsKeepSwitches | src/thermostat.ts:139-145 | dropping the events keeps the start/stop pattern of the calls |
| LegacyThermostat.Deliver | src/thermostat.ts:139-145 | with an observer every effect is delivered; without one no event is delivered; the trigger calls, with their equipment and order, are the same either way |
| LegacyThermostat.Construct | src/thermostat.ts:21-27 | a new legacy thermostat has no observer and holds exactly the current loop's new state: the given configuration, idle, never run, no overshoot margin, the mode's trigger and its default target |
| LegacyThermostat.Subscribe | src/thermostat.ts:35-37 | subscribing registers the observer and changes nothing else |
| LegacyThermostat.SetTarget | src/thermostat.ts:102-114 | the request is clamped unconditionally, with no comparison and no event: kept when in range, raised to the minimum below it, lowered to the maximum above it; only the target changes; the state invariant is kept |
| LegacyThermostat.SetMode | src/thermostat.ts:120-124 | mode and trigger follow the new mode, the target becomes its default, and start time, stop time and overshoot margin are untouched |
| LegacyThermostat.TempReceived | src/thermostat.ts:62-79 | the next state is the current loop's; no temperature event is emitted; nothing is emitted without an observer; with an observer the effects are exactly the current loop's minus its final temperature event, so every on/off event is delivered; calls alternate |
| LegacyThermostat.Apply | src/thermostat.ts:33-45 | any single request or reading keeps calls alternating; no event is emitted without an observer, and with one the on/off events match the calls one for one |
| LegacyThermostat.Run | src/thermostat.ts:33-45 | the same facts over any sequence of requests and readings |
| LegacyThermostat.SetTargetAgreesWithCore | src/thermostat.ts:102-114 | on a valid state the unconditional clamp stores what the current loop's compare-then-clamp stores |
| LegacyThermostat.SetModeAgreesWithCore | src/thermostat.ts:120-124 | on a valid state both versions of `setMode` reach the same state |
| LegacyThermostat.ReadingAgreesWithCore | src/thermostat.ts:62-79 | a reading takes both loops to the same state and makes the same trigger calls, to the same equipment and in the same order |
| LegacyThermostat.ApplyAgreesWithCore | src/thermostat.ts:51-96 | on a valid state one request or reading takes both loops to the same state with the same trigger calls, to the same equipment and in the same order |
| LegacyThermostat.RunAgreesWithCore | src/thermostat.ts:51-96 | from a valid state both loops reach the same states and make the same trigger calls, to the same equipment and in the same order, over any input sequence; only the events differ |
| LegacyThermostat.RunSameSwitches | src/thermostat.ts:51-96 | from a valid state both loops start and stop in the same pattern over any input sequence |
| WindowedTempReader.Start | src/core/tempReader.ts:15-24 | L >= N readings give exactly L - N + 1 outputs, and fewer give none |
| WindowedTempReader.StartAt | src/core/tempReader.ts:17-20 | output k is the sum of readings k .. k + N - 1 divided by the fixed window size N |
| WindowedTempReader.StartWindows | src/core/tempReader.ts:15-23 | every output is the mean of its window, in window-start order |
| WindowedTempReader.ReduceWindows | src/core/tempReader.ts:15-23 | opening a window at each reading, reducing each complete window with `acc + num` and dividing by N yields exactly the reference stream |
| WindowedTempReader.ConstantReadings | src/core/tempReader.ts:19-20 | a constant sensor yields a constant smoothed stream |
| WindowedTempReader.StopTruncates | src/core/tempReader.ts:26-28 | a sensor stopped after m readings yields exactly the outputs the longer stream had produced by then |
| BufferedTempReader.Push | src/tempReader.ts:30-33 | a push grows the buffer by one until it holds N readings and then keeps it at N |
| BufferedTempReader.PushIsSuffix | src/tempReader.ts:30-33 | the new buffer is a suffix of the old buffer followed by the reading, so only the oldest reading can be dropped |
| BufferedTempReader.PushRecent | src/tempReader.ts:29-33 | pushing onto the last min(k, N) readings gives the last min(k + 1, N) readings |
| BufferedTempReader.FoldIsMean | src/tempReader.ts:41 | continuing the fold prev + (curr - prev) / (i + 1) from the mean of the first i readings gives the mean of all of them |
| BufferedTempReader.IncrementalMeanIsMean | src/tempReader.ts:40-42 | the incremental fold with no seed equals sum / length |
| BufferedTempReader.Current | src/tempReader.ts:40-42 | `current()` succeeds iff the buffer is non-empty |
| BufferedTempReader.CurrentIsMean | src/tempReader.ts:40-42 | when `current()` succeeds it is the arithmetic mean of the buffer |
| BufferedTempReader.PollAll | src/tempReader.ts:29-38 | after the polls the buffer holds the last min(k, N) readings in order; with N >= 1 each poll emits exactly one value, the `current()` of the buffer after its own reading; with N = 0 the first poll fails and nothing is emitted |
| BufferedTempReader.EmitsMeans | src/tempReader.ts:29-42 | with N >= 1 poll k emits the mean of the last min(k + 1, N) readings, including partial means before N readings |
| BufferedTempReader.AgreesWithWindowOnceFull | src/tempReader.ts:35 | once N readings have arrived the buffered reader emits what the sliding-window reader emits for the window ending at the same reading |
| BufferedTempReader.FiveReadingsAverageSeventy | test/tempReaderTests.ts:24-45 | readings 68, 69, 70, 71, 72 with N = 5 leave all five buffered and give a mean of 70 |
| RootTempReader.Construct | tempReader.ts:11-18 | construction polls once: with N >= 1 the buffer holds the first reading and `current()` returns it; with N = 0 the buffer is empty and `current()` fails |
| RootTempReader.PollSensor | tempReader.ts:20-24 | a poll keeps the length bound N and leaves the new reading last |
| RootTempReader.PollSensorIsSuffix | tempReader.ts:20-24 | the new buffer is a suffix of the old buffer followed by the reading, so only the oldest reading can be dropped |
| RootTempReader.Current | tempReader.ts:29-31 | `current()` succeeds iff the buffer is non-empty, and is then the arithmetic mean of the buffer |
| RootTempReader.PollsKeepRecent | tempReader.ts:11-24 | after construction and any further polls the buffer holds the last min(k, N) readings in arrival order |
| RootTempReader.PollAllRecent | tempReader.ts:20-24 | polls applied to the last min(k, N) readings of a history give the last readings of the extended history |

## Left out

- Clock: the source reads the clock once per timing check (`Date.now()`) and once per start or stop time (`new Date()`), so one `tryStartTrigger` can read it up to four times. The model uses one `now` per step, so a start or stop time equals the time the timing checks compared against.
- RxJS mechanics: observer lists, subscription timing and the error callback, which only logs. `windowCount` also emits partial windows when the source completes; that is library behaviour, and only complete windows are modelled.
- WindowedTempReader.Start: requires a window size of at least 1. A window of size 0 is not a meaningful configuration of the library operator.
- Timers: sensor scheduling is left out, and the sensor is an input sequence.
- Root reader scheduling bug: `tempReader.ts:26` schedules `this.pollSensor` without binding `this`, so a scheduled poll cannot reach the buffer. `RootTempReader.PollAll` models the public `pollSensor` called directly.
- API servers, the simulator, logging and the index re-exports: these are I/O glue.
- Event text: messages keep numbers as numbers rather than `Number.toString` text.
- JavaScript number edge cases: NaN, infinities and rounding are not modelled, since temperatures are exact reals.
- Server-built configurations: the API servers pass in plain records whose `TargetRange` and `DefaultTarget` are fixed fields that do not follow `Mode`. Only the mode-selected getters of `src/configuration.ts` are modelled.
- Ranges are records with a lower and an upper bound, not arrays that could be shorter than two elements.
- Thermostat.Construct: the source's `_target` starts out undefined, so the first `setTarget` comparison always differs. The model stores the clamped default directly. The event this would emit goes to an observer list that does not exist yet, so nothing is lost.
- `stop()` of the current reader only delegates to the sensor. It is modelled as the sensor's stream ending (`WindowedTempReader.StopTruncates`).

=== FILE: averages.dfy ===
/** Sums and arithmetic means of temperature readings, the reference both smoothing filters
    are measured against. Temperatures are exact reals. */
module Averages {

  /** The sum of the readings, added from the left as a running total would. */
  function Sum(xs: seq<real>): real
    decreases |xs|
  {
    if |xs| == 0 then 0.0 else Sum(xs[..|xs| - 1]) + xs[|xs| - 1]
  }

  function Mean(xs: seq<real>): real
    requires |xs| > 0
  {
    Sum(xs) / (|xs| as real)
  }

  /** Extending a window by the next reading adds that reading. */
  lemma SumExtend(xs: seq<real>, lo: nat, hi: nat)
    requires lo <= hi < |xs|
    ensures Sum(xs[lo..hi + 1]) == Sum(xs[lo..hi]) + xs[hi]
  {
    assert xs[lo..hi + 1][..hi - lo] == xs[lo..hi];
  }

  /** A window of the tail is the window one place further on. */
  lemma TailWindow(xs: seq<real>, k: nat, n: nat)
    requires 1 <= k && k + n <= |xs|
    ensures xs[1..][k - 1..k - 1 + n] == xs[k..k + n]
  {
    var a := xs[1..][k - 1..k - 1 + n];
    var b := xs[k..k + n];
    assert |a| == |b|;
    forall j | 0 <= j < n
      ensures a[j] == b[j]
    {
      assert a[j] == xs[1..][k - 1 + j] == xs[k + j];
    }
  }

  /** A window of readings all equal to `c` sums to its length times `c`. */
  lemma {:induction false} SumConstant(xs: seq<real>, c: real)
    requires forall i :: 0 <= i < |xs| ==> xs[i] == c
    ensures Sum(xs) == (|xs| as real) * c
    decreases |xs|
  {
    if |xs| > 0 {
      SumConstant(xs[..|xs| - 1], c);
    }
  }

  lemma MeanConstant(xs: seq<real>, c: real)
    requires |xs| > 0
    requires forall i :: 0 <= i < |xs| ==> xs[i] == c
    ensures Mean(xs) == c
  {
    SumConstant(xs, c);
  }
}

=== FILE: buffered_temp_reader.dfy ===
/** The earlier temperature reader: every poll pushes the sensor's reading onto a buffer,
    drops the oldest reading once the buffer is longer than `n`, and emits the buffer's
    mean, computed by an incremental fold. Before `n` readings the means are partial. */
module BufferedTempReader {
  import opened Wrappers
  import opened Averages
  import WindowedTempReader

  /** The last min(|xs|, n) readings, in arrival order. */
  function Recent(xs: seq<real>, n: nat): (r: seq<real>)
    ensures |r| == if |xs| < n then |xs| else n
  {
    xs[|xs| - (if |xs| < n then |xs| else n)..]
  }

  /** The buffer update of `pollSensor`: push, then shift once if longer than `n`. */
  function Push(buf: seq<real>, x: real, n: nat): (r: seq<real>)
    ensures |r| == |buf| + 1 || |r| == |buf|
    ensures |buf| <= n ==> |r| == if |buf| < n then |buf| + 1 else n
  {
    var pushed := buf + [x];
    if |pushed| > n then pushed[1..] else pushed
  }

  /** The pushed buffer is a suffix of the old buffer followed by the reading: nothing is
      reordered and only the oldest reading can be dropped. */
  lemma PushIsSuffix(buf: seq<real>, x: real, n: nat)
    ensures var r := Push(buf, x, n);
            r == (buf + [x])[|buf| + 1 - |r|..]
  {
  }

  /** Pushing onto the recent readings gives the recent readings of the longer history. */
  lemma PushRecent(xs: seq<real>, x: real, n: nat)
    ensures Push(Recent(xs, n), x, n) == Recent(xs + [x], n)
  {
    var r := Recent(xs, n);
    var lo := |xs| - |r|;
    PushIsSuffix(r, x, n);
    assert r + [x] == (xs + [x])[lo..];
  }

  /** `reduce((prev, curr, i) => prev + (curr - prev) / (i + 1))` without a seed: the fold
      starts from the first reading, with index 1 for the second. */
  function IncrementalMean(buf: seq<real>): real
    requires |buf| > 0
  {
    Fold(buf[0], buf, 1)
  }

  /** The fold from index `i` on, `prev` being its value over the readings before `i`. */
  function Fold(prev: real, buf: seq<real>, i: nat): real
    decreases |buf| - i
  {
    if i >= |buf| then prev
    else Fold(prev + (buf[i] - prev) / ((i + 1) as real), buf, i + 1)
  }

  /** Folding on from the mean of the first `i` readings gives the mean of all of them. */
  lemma {:induction false} FoldIsMean(buf: seq<real>, i: nat)
    requires 1 <= i <= |buf|
    ensures Fold(Mean(buf[..i]), buf, i) == Mean(buf)
    decreases |buf| - i
  {
    if i == |buf| {
      assert buf[..i] == buf;
    } else {
      assert buf[..i + 1][..i] == buf[..i];
      IncrementalStep(Sum(buf[..i]), buf[i], i as real);
      FoldIsMean(buf, i + 1);
    }
  }

  /** The incremental fold computes the arithmetic mean. */
  lemma IncrementalMeanIsMean(buf: seq<real>)
    requires |buf| > 0
    ensures IncrementalMean(buf) == Mean(buf)
  {
    assert buf[..1][..0] == [];
    assert Sum(buf[..1]) == buf[0];
    FoldIsMean(buf, 1);
  }

  /** One step of the fold turns the mean of k readings into the mean of k + 1. */
  lemma IncrementalStep(s: real, x: real, k: real)
    requires k > 0.0
    ensures s / k + (x - s / k) / (k + 1.0) == (s + x) / (k + 1.0)
  {
    var m := s / k;
    assert s == m * k;
    calc {
      m + (x - m) / (k + 1.0);
      (m * (k + 1.0)) / (k + 1.0) + (x - m) / (k + 1.0);
      (m * (k + 1.0) + (x - m)) / (k + 1.0);
      (m * k + x) / (k + 1.0);
    }
  }

  /** `current()`: the buffer's incremental mean; `reduce` without a seed fails on an empty buffer. */
  function Current(buf: seq<real>): (r: Option<real>)
    ensures r.Some? <==> |buf| > 0
  {
    if |buf| == 0 then None else Some(IncrementalMean(buf))
  }

  /** `current()` is the arithmetic mean of the buffer whenever it succeeds. */
  lemma CurrentIsMean(buf: seq<real>)
    ensures Current(buf).Some? ==> Current(buf).value == Mean(buf)
  {
    if |buf| > 0 {
      IncrementalMeanIsMean(buf);
    }
  }

  /** Polling the sensor once per reading: each poll pushes the reading, shifts if the buffer
      is longer than `n`, and emits `current()` of the buffer as it then stands. When
      `current()` fails on an empty buffer the poll throws before it emits or schedules the
      next poll, so polling ends there. */
  method PollAll(readings: seq<real>, n: nat) returns (buffer: seq<real>, emitted: seq<real>)
    ensures buffer == Recent(readings, n)
    ensures |emitted| == if n == 0 then 0 else |readings|
    ensures forall k :: 0 <= k < |emitted| ==> Some(emitted[k]) == Current(Recent(readings[..k + 1], n))
  {
    buffer, emitted := [], [];
    var i := 0;
    while i < |readings|
      invariant 0 <= i <= |readings|
      invariant i > 0 ==> n >= 1
      invariant buffer == Recent(readings[..i], n)
      invariant |emitted| == i
      invariant forall k :: 0 <= k < i ==> Some(emitted[k]) == Current(Recent(readings[..k + 1], n))
    {
      PushRecentPrefix(readings, i, n);
      buffer := Push(buffer, readings[i], n);
      var c := Current(buffer);
      if c.None? {
        return;
      }
      assert |buffer| > 0;
      emitted := emitted + [c.value];
      i := i + 1;
    }
    assert readings[..i] == readings;
  }

  /** One more poll turns the recent readings of a prefix into those of the next prefix. */
  lemma PushRecentPrefix(readings: seq<real>, i: nat, n: nat)
    requires i < |readings|
    ensures Push(Recent(readings[..i], n), readings[i], n) == Recent(readings[..i + 1], n)
    ensures |Recent(readings[..i + 1], n)| == 0 <==> n == 0
  {
    PushRecent(readings[..i], readings[i], n);
    assert readings[..i] + [readings[i]] == readings[..i + 1];
  }

  /** With a positive length the buffer never grows past `n` and every poll emits the mean of
      the last min(k + 1, n) readings. */
  lemma EmitsMeans(readings: seq<real>, n: nat, k: nat)
    requires n >= 1 && k < |readings|
    ensures Current(Recent(readings[..k + 1], n)) == Some(Mean(Recent(readings[..k + 1], n)))
  {
    CurrentIsMean(Recent(readings[..k + 1], n));
  }

  /** Once the buffer is full, the buffered reader emits what the sliding-window reader emits
      for the window ending at the same reading. */
  lemma AgreesWithWindowOnceFull(readings: seq<real>, n: nat, k: nat)
    requires n >= 1 && n - 1 <= k < |readings|
    ensures Current(Recent(readings[..k + 1], n)) == Some(WindowedTempReader.Start(readings, n)[k - n + 1])
  {
    var w := readings[..k + 1];
    assert Recent(w, n) == readings[k + 1 - n..k + 1];
    CurrentIsMean(Recent(w, n));
    WindowedTempReader.StartAt(readings, n, k - n + 1);
  }

  /** Readings 68, 69, 70, 71, 72 with a buffer of five give a mean of 70. */
  lemma FiveReadingsAverageSeventy()
    ensures Recent([68.0, 69.0, 70.0, 71.0, 72.0], 5) == [68.0, 69.0, 70.0, 71.0, 72.0]
    ensures Current(Recent([68.0, 69.0, 70.0, 71.0, 72.0], 5)) == Some(70.0)
  {
    var xs := [68.0, 69.0, 70.0, 71.0, 72.0];
    assert Recent(xs, 5) == xs;
    assert [68.0][..0] == [];
    assert Sum([68.0]) == 68.0;
    assert [68.0, 69.0][..1] == [68.0];
    assert Sum([68.0, 69.0]) == 137.0;
    assert [68.0, 69.0, 70.0][..2] == [68.0, 69.0];
    assert Sum([68.0, 69.0, 70.0]) == 207.0;
    assert [68.0, 69.0, 70.0, 71.0][..3] == [68.0, 69.0, 70.0];
    assert Sum([68.0, 69.0, 70.0, 71.0]) == 278.0;
    assert xs[..4] == [68.0, 69.0, 70.0, 71.0];
    assert Sum(xs) == 350.0;
    CurrentIsMean(xs);
  }
}

=== FILE: configuration.dfy ===
/** The thermostat configuration: the per-mode target ranges, the current mode, and the
    limits that bound a run. `TargetRange` and `DefaultTarget` are getters selected by the
    current mode, so changing the mode switches both together. */
module Configuration {

  /** The operating mode; it selects the target range, the default target and the trigger. */
  datatype Mode = Heating | Cooling

  /** A target range [lo, hi]; the source stores it as a two-element array. */
  datatype Range = Range(lo: real, hi: real) {

    predicate WellFormed() {
      lo <= hi
    }

    predicate Contains(v: real) {
      lo <= v <= hi
    }
  }

  /** `maxRunTime` and `minDelayBetweenRuns` are milliseconds; they belong to the extended
      configuration that the control loop reads next to the four fields of the base record. */
  datatype Config = Config(
    heatingTargetRange: Range,
    coolingTargetRange: Range,
    mode: Mode,
    maxOvershootTemp: real,
    maxRunTime: int,
    minDelayBetweenRuns: int)
  {

    /** Each range is ordered (min <= max). */
    predicate WellFormed() {
      heatingTargetRange.WellFormed() && coolingTargetRange.WellFormed()
    }

    /** The heating range in Heating mode, otherwise the cooling range. */
    function TargetRange(): (r: Range)
      ensures mode == Heating ==> r == heatingTargetRange
      ensures mode == Cooling ==> r == coolingTargetRange
      ensures WellFormed() ==> r.WellFormed()
    {
      if mode == Heating then heatingTargetRange else coolingTargetRange
    }

    /** The safe default: the bottom of the heating range, or the top of the cooling range. */
    function DefaultTarget(): (t: real)
      ensures mode == Heating ==> t == TargetRange().lo
      ensures mode == Cooling ==> t == TargetRange().hi
      ensures WellFormed() ==> TargetRange().Contains(t)
    {
      if mode == Heating then heatingTargetRange.lo else coolingTargetRange.hi
    }
  }

  /** Both getters read only the mode and the two ranges: switching the mode switches both,
      and the timing limits and overshoot play no part. */
  lemma GettersFollowMode(c: Config, m: Mode, maxOvershootTemp: real, maxRunTime: int, minDelay: int)
    ensures var c' := c.(mode := m, maxOvershootTemp := maxOvershootTemp,
                         maxRunTime := maxRunTime, minDelayBetweenRuns := minDelay);
            && c'.TargetRange() == (if m == Heating then c.heatingTargetRange else c.coolingTargetRange)
            && c'.DefaultTarget() == (if m == Heating then c.heatingTargetRange.lo else c.coolingTargetRange.hi)
  {
  }
}

=== FILE: events.dfy ===
/** The events the control loop emits, and the effects of one step of the loop: calls on an
    equipment trigger, events delivered to the observers, and the completion signal.
    The observer list becomes "the effects emitted by this step", in emission order. */
module Events {
  import opened Configuration

  datatype EventType = Message | Error | Warning

  /** An event message; numbers are kept as numbers rather than as their printed text. */
  datatype Payload = Text(text: string) | Number(value: real)

  datatype ThermostatEvent = ThermostatEvent(kind: EventType, topic: seq<string>, message: Payload)

  /** The two triggers the loop drives. */
  datatype Equipment = Furnace | AirConditioner

  datatype Effect =
    | TriggerStart(which: Equipment)
    | TriggerStop(which: Equipment)
    | Emit(event: ThermostatEvent)
    | Complete

  /** The on/off event for the equipment of `mode`: topic ["thermostat", "furnace"|"ac"]. */
  function TriggerEvent(mode: Mode, on: bool): (e: ThermostatEvent)
    ensures IsSwitchEvent(Emit(e)) && !IsTemperatureEvent(Emit(e))
    ensures e.kind == Message
    ensures mode == Heating ==> e.topic == ["thermostat", "furnace"]
    ensures mode == Cooling ==> e.topic == ["thermostat", "ac"]
    ensures e.message == Text("on") <==> on
  {
    ThermostatEvent(Message, ["thermostat", if mode == Heating then "furnace" else "ac"],
                    Text(if on then "on" else "off"))
  }

  function TemperatureEvent(temp: real): (e: ThermostatEvent)
    ensures IsTemperatureEvent(Emit(e)) && !IsSwitchEvent(Emit(e))
    ensures e.kind == Message
    ensures e.message == Number(temp)
  {
    ThermostatEvent(Message, ["sensors", "temperature", "thermostat"], Number(temp))
  }

  function TargetEvent(target: real): (e: ThermostatEvent)
    ensures !IsTemperatureEvent(Emit(e)) && !IsSwitchEvent(Emit(e))
    ensures e.kind == Message && e.topic == ["thermostat", "target"]
    ensures e.message == Number(target)
  {
    ThermostatEvent(Message, ["thermostat", "target"], Number(target))
  }

  predicate IsTemperatureEvent(e: Effect) {
    e.Emit? && e.event.topic == ["sensors", "temperature", "thermostat"]
  }

  /** An "on"/"off" event for either piece of equipment. */
  predicate IsSwitchEvent(e: Effect) {
    && e.Emit?
    && |e.event.topic| == 2
    && e.event.topic[0] == "thermostat"
    && (e.event.topic[1] == "furnace" || e.event.topic[1] == "ac")
    && (e.event.message == Text("on") || e.event.message == Text("off"))
  }

  /** Starting a trigger: the call, then the "on" event for the current mode. */
  function SwitchOn(which: Equipment, mode: Mode): seq<Effect> {
    [TriggerStart(which), Emit(TriggerEvent(mode, true))]
  }

  /** Stopping a trigger: the call, then the "off" event for the current mode. */
  function SwitchOff(which: Equipment, mode: Mode): seq<Effect> {
    [TriggerStop(which), Emit(TriggerEvent(mode, false))]
  }

  /** The trigger calls among the effects, in order: true for a start, false for a stop. */
  function Switches(fx: seq<Effect>): seq<bool> {
    if |fx| == 0 then []
    else
      (match fx[0]
       case TriggerStart(_) => [true]
       case TriggerStop(_) => [false]
       case _ => [])
      + Switches(fx[1..])
  }

  /** The on/off events among the effects, in order: true for "on", false for "off". */
  function OnOff(fx: seq<Effect>): seq<bool> {
    if |fx| == 0 then []
    else
      (if IsSwitchEvent(fx[0]) then [fx[0].event.message == Text("on")] else [])
      + OnOff(fx[1..])
  }

  lemma {:induction false} SwitchesAppend(a: seq<Effect>, b: seq<Effect>)
    ensures Switches(a + b) == Switches(a) + Switches(b)
    decreases |a|
  {
    if |a| == 0 {
      assert a + b == b;
    } else {
      assert (a + b)[0] == a[0];
      assert (a + b)[1..] == a[1..] + b;
      SwitchesAppend(a[1..], b);
    }
  }

  lemma {:induction false} OnOffAppend(a: seq<Effect>, b: seq<Effect>)
    ensures OnOff(a + b) == OnOff(a) + OnOff(b)
    decreases |a|
  {
    if |a| == 0 {
      assert a + b == b;
    } else {
      assert (a + b)[0] == a[0];
      assert (a + b)[1..] == a[1..] + b;
      OnOffAppend(a[1..], b);
    }
  }

  /** Starting in the given running state, each call switches to the other state: a start only
      while idle, a stop only while running. */
  predicate Alternating(running: bool, xs: seq<bool>)
    decreases |xs|
  {
    |xs| == 0 || (xs[0] == !running && Alternating(xs[0], xs[1..]))
  }

  /** The running state after the calls `xs`. */
  function Final(running: bool, xs: seq<bool>): bool {
    if |xs| == 0 then running else xs[|xs| - 1]
  }

  /** The trigger calls in `fx` alternate starting from `before` and leave the equipment in `after`. */
  predicate SwitchesFrom(before: bool, fx: seq<Effect>, after: bool) {
    Alternating(before, Switches(fx)) && after == Final(before, Switches(fx))
  }

  lemma {:induction false} AlternatingAppend(running: bool, xs: seq<bool>, ys: seq<bool>)
    ensures Alternating(running, xs + ys) <==> Alternating(running, xs) && Alternating(Final(running, xs), ys)
    ensures Final(running, xs + ys) == Final(Final(running, xs), ys)
    decreases |xs|
  {
    if |xs| == 0 {
      assert xs + ys == ys;
    } else {
      assert (xs + ys)[0] == xs[0];
      assert (xs + ys)[1..] == xs[1..] + ys;
      AlternatingAppend(xs[0], xs[1..], ys);
    }
  }

  /** Concatenating two steps whose calls alternate yields calls that alternate. */
  lemma SwitchesFromAppend(a: bool, fx: seq<Effect>, b: bool, gx: seq<Effect>, c: bool)
    requires SwitchesFrom(a, fx, b) && SwitchesFrom(b, gx, c)
    ensures SwitchesFrom(a, fx + gx, c)
  {
    SwitchesAppend(fx, gx);
    AlternatingAppend(a, Switches(fx), Switches(gx));
  }

  /** From idle, alternating calls are start, stop, start, ... */
  lemma {:induction false} AlternatingFromIdle(xs: seq<bool>)
    requires Alternating(false, xs)
    ensures forall i :: 0 <= i < |xs| ==> xs[i] == (i % 2 == 0)
    decreases |xs|
  {
    if |xs| >= 2 {
      assert xs[0] && !xs[1];
      assert Alternating(false, xs[2..]) by {
        assert Alternating(xs[0], xs[1..]);
        assert xs[1..][1..] == xs[2..];
      }
      AlternatingFromIdle(xs[2..]);
      forall i | 2 <= i < |xs|
        ensures xs[i] == (i % 2 == 0)
      {
        assert xs[i] == xs[2..][i - 2];
      }
    }
  }

  /** Effects made only of trigger calls and on/off events. */
  predicate OnlySwitching(fx: seq<Effect>) {
    forall e :: e in fx ==> e.TriggerStart? || e.TriggerStop? || IsSwitchEvent(e)
  }

  lemma OnlySwitchingAppend(a: seq<Effect>, b: seq<Effect>)
    requires OnlySwitching(a) && OnlySwitching(b)
    ensures OnlySwitching(a + b)
  {
  }

  lemma SwitchOnTraces(which: Equipment, mode: Mode)
    ensures Switches(SwitchOn(which, mode)) == [true]
    ensures OnOff(SwitchOn(which, mode)) == [true]
    ensures SwitchesFrom(false, SwitchOn(which, mode), true)
    ensures OnlySwitching(SwitchOn(which, mode))
  {
    var fx := SwitchOn(which, mode);
    assert fx[1..][1..] == [];
    assert IsSwitchEvent(fx[1]) && !IsSwitchEvent(fx[0]);
    assert [true][1..] == [];
  }

  lemma SwitchOffTraces(which: Equipment, mode: Mode)
    ensures Switches(SwitchOff(which, mode)) == [false]
    ensures OnOff(SwitchOff(which, mode)) == [false]
    ensures SwitchesFrom(true, SwitchOff(which, mode), false)
    ensures OnlySwitching(SwitchOff(which, mode))
  {
    var fx := SwitchOff(which, mode);
    assert fx[1..][1..] == [];
    assert IsSwitchEvent(fx[1]) && !IsSwitchEvent(fx[0]);
    assert [false][1..] == [];
  }

  /** Temperature and target events are neither trigger calls nor on/off events. */
  lemma ReportTraces(t: real)
    ensures Switches([Emit(TemperatureEvent(t))]) == [] && OnOff([Emit(TemperatureEvent(t))]) == []
    ensures Switches([Emit(TargetEvent(t))]) == [] && OnOff([Emit(TargetEvent(t))]) == []
  {
    assert !IsSwitchEvent(Emit(TargetEvent(t))) by {
      assert TargetEvent(t).topic[1] == "target";
      assert "target" != "furnace" && "target" != "ac";
    }
  }
}

=== FILE: legacy_thermostat.dfy ===
/** The earlier control loop. Its decision code is the same as the current loop's; it clamps
    every target request without comparing it with the current target, emits no target or
    temperature events, and delivers on/off events to a single observer, which exists only
    once someone has subscribed to the stream `start()` returns. */
module LegacyThermostat {
  import opened Configuration
  import opened Events
  import Thermostat

  datatype Legacy = Legacy(machine: Thermostat.State, observed: bool)

  datatype Step = Step(state: Legacy, effects: seq<Effect>)

  /** The trigger calls alone: on/off events dropped for want of an observer. */
  function Calls(fx: seq<Effect>): (r: seq<Effect>)
    ensures |r| <= |fx|
    ensures forall i :: 0 <= i < |r| ==> !r[i].Emit?
  {
    if |fx| == 0 then []
    else if fx[0].Emit? then Calls(fx[1..])
    else [fx[0]] + Calls(fx[1..])
  }

  /** The filter distributes over concatenation, so no call moves past another. */
  lemma {:induction false} CallsAppend(a: seq<Effect>, b: seq<Effect>)
    ensures Calls(a + b) == Calls(a) + Calls(b)
    decreases |a|
  {
    if |a| == 0 {
      assert a + b == b;
    } else {
      TailOfAppend(a, b);
      CallsAppend(a[1..], b);
      var head := if a[0].Emit? then [] else [a[0]];
      assert head + (Calls(a[1..]) + Calls(b)) == (head + Calls(a[1..])) + Calls(b);
    }
  }

  lemma TailOfAppend<T>(a: seq<T>, b: seq<T>)
    requires |a| > 0
    ensures (a + b)[0] == a[0] && (a + b)[1..] == a[1..] + b
  {
  }

  /** A single effect survives the filter iff it is a trigger call. */
  lemma CallsSingle(e: Effect)
    ensures Calls([e]) == if e.Emit? then [] else [e]
  {
    assert [e][1..] == [];
  }

  /** An effect remains iff it is a trigger call of the original effects. */
  lemma {:induction false} CallsMembers(fx: seq<Effect>)
    ensures forall e :: e in Calls(fx) <==> e in fx && !e.Emit?
    decreases |fx|
  {
    if |fx| > 0 {
      CallsMembers(fx[1..]);
      assert fx == [fx[0]] + fx[1..];
    }
  }

  /** Dropping the events keeps every trigger call, so the start/stop pattern is unchanged. */
  lemma {:induction false} CallsKeepSwitches(fx: seq<Effect>)
    ensures Switches(Calls(fx)) == Switches(fx)
    decreases |fx|
  {
    if |fx| > 0 {
      CallsKeepSwitches(fx[1..]);
      assert fx == [fx[0]] + fx[1..];
      SwitchesAppend([fx[0]], fx[1..]);
      if !fx[0].Emit? {
        SwitchesAppend([fx[0]], Calls(fx[1..]));
      }
    }
  }

  /** Effects that are all trigger calls pass the filter unchanged. */
  lemma {:induction false} CallsKeepsCalls(fx: seq<Effect>)
    requires forall e :: e in fx ==> !e.Emit?
    ensures Calls(fx) == fx
    decreases |fx|
  {
    if |fx| > 0 {
      assert fx[0] in fx;
      assert forall e :: e in fx[1..] ==> e in fx;
      CallsKeepsCalls(fx[1..]);
      assert fx == [fx[0]] + fx[1..];
    }
  }

  /** What reaches the outside: every effect with an observer, the trigger calls alone without one. */
  function Deliver(observed: bool, fx: seq<Effect>): (r: seq<Effect>)
    ensures Switches(r) == Switches(fx)
    ensures Calls(r) == Calls(fx)
    ensures observed ==> r == fx
    ensures !observed ==> forall e :: e in r ==> !e.Emit?
  {
    if observed then fx
    else
      CallsMembers(Calls(fx));
      CallsKeepsCalls(Calls(fx));
      CallsKeepSwitches(fx);
      Calls(fx)
  }

  /** The constructor runs `setMode`, which emits nothing in this version. */
  function Construct(config: Config): (l: Legacy)
    ensures !l.observed && !Thermostat.IsRunning(l.machine) && Thermostat.IsFirstRun(l.machine)
    ensures config.WellFormed() ==> l.machine.target == config.DefaultTarget() && Thermostat.Valid(l.machine)
    ensures l.machine == Thermostat.Construct(config)
  {
    Legacy(Thermostat.Construct(config), false)
  }

  /** Subscribing to the stream returned by `start()` registers the observer. */
  function Subscribe(l: Legacy): (r: Legacy)
    ensures r.observed && r.machine == l.machine
  {
    l.(observed := true)
  }

  /** `setTarget`: clamp unconditionally, no comparison, no event. */
  function SetTarget(l: Legacy, v: real): (r: Legacy)
    ensures r.observed == l.observed
    ensures r.machine.(target := l.machine.target) == l.machine
    ensures l.machine.config.TargetRange().Contains(v) ==> r.machine.target == v
    ensures v < l.machine.config.TargetRange().lo ==> r.machine.target == l.machine.config.TargetRange().lo
    ensures l.machine.config.TargetRange().lo <= v && l.machine.config.TargetRange().hi < v ==>
              r.machine.target == l.machine.config.TargetRange().hi
    ensures Thermostat.Valid(l.machine) ==> Thermostat.Valid(r.machine)
  {
    l.(machine := l.machine.(target := Thermostat.Clamp(v, l.machine.config.TargetRange())))
  }

  /** `setMode`: record the mode, clamp the new default target, select the mode's trigger. */
  function SetMode(l: Legacy, m: Mode): (r: Legacy)
    ensures r.observed == l.observed
    ensures r.machine.config == l.machine.config.(mode := m)
    ensures r.machine.currentTrigger == Thermostat.TriggerFor(m)
    ensures r.machine.startTime == l.machine.startTime && r.machine.stopTime == l.machine.stopTime
    ensures r.machine.overshootBy == l.machine.overshootBy
    ensures l.machine.config.WellFormed() ==> r.machine.target == r.machine.config.DefaultTarget()
  {
    var l1 := l.(machine := l.machine.(config := l.machine.config.(mode := m)));
    var l2 := SetTarget(l1, l1.machine.config.DefaultTarget());
    l2.(machine := l2.machine.(currentTrigger := Thermostat.TriggerFor(m)))
  }

  /** `tempReceived`: the shared hysteresis decision; on/off events reach the observer if there
      is one, and no temperature event is emitted. */
  function TempReceived(l: Legacy, temp: real, now: int): (r: Step)
    ensures r.state.observed == l.observed
    ensures r.state.machine == Thermostat.TempReceived(l.machine, temp, now).state
    ensures forall e :: e in r.effects ==> !IsTemperatureEvent(e)
    ensures !l.observed ==> forall e :: e in r.effects ==> !e.Emit?
    ensures l.observed ==> r.effects + [Emit(TemperatureEvent(temp))] == Thermostat.TempReceived(l.machine, temp, now).effects
    ensures l.observed ==> OnOff(r.effects) == Switches(r.effects)
    ensures SwitchesFrom(Thermostat.IsRunning(l.machine), r.effects, Thermostat.IsRunning(r.state.machine))
  {
    var d := Thermostat.Decide(l.machine, temp, now);
    Step(Legacy(d.state, l.observed), Deliver(l.observed, d.effects))
  }

  function Apply(l: Legacy, c: Thermostat.Command): (r: Step)
    ensures SwitchesFrom(Thermostat.IsRunning(l.machine), r.effects, Thermostat.IsRunning(r.state.machine))
    ensures r.state.observed == l.observed
    ensures !l.observed ==> forall e :: e in r.effects ==> !e.Emit?
    ensures l.observed ==> OnOff(r.effects) == Switches(r.effects)
  {
    match c
    case SetTargetTo(v) =>
      assert Switches([]) == [] && OnOff([]) == [];
      Step(SetTarget(l, v), [])
    case SetModeTo(m) =>
      assert Switches([]) == [] && OnOff([]) == [];
      Step(SetMode(l, m), [])
    case Reading(now, temp) => TempReceived(l, temp, now)
  }

  function Run(l: Legacy, cs: seq<Thermostat.Command>): (r: Step)
    ensures SwitchesFrom(Thermostat.IsRunning(l.machine), r.effects, Thermostat.IsRunning(r.state.machine))
    ensures !l.observed ==> forall e :: e in r.effects ==> !e.Emit?
    ensures l.observed ==> OnOff(r.effects) == Switches(r.effects)
    decreases |cs|
  {
    if |cs| == 0 then
      assert Switches([]) == [] && OnOff([]) == [];
      Step(l, [])
    else
      var a := Apply(l, cs[0]);
      var b := Run(a.state, cs[1..]);
      SwitchesFromAppend(Thermostat.IsRunning(l.machine), a.effects, Thermostat.IsRunning(a.state.machine),
                         b.effects, Thermostat.IsRunning(b.state.machine));
      SwitchesAppend(a.effects, b.effects);
      OnOffAppend(a.effects, b.effects);
      Step(b.state, a.effects + b.effects)
  }

  /** On a valid state (target inside the current range) the unconditional clamp stores what
      the current version's compare-then-clamp stores. */
  lemma SetTargetAgreesWithCore(l: Legacy, v: real)
    requires Thermostat.Valid(l.machine)
    ensures SetTarget(l, v).machine == Thermostat.SetTarget(l.machine, v).state
  {
  }

  lemma SetModeAgreesWithCore(l: Legacy, m: Mode)
    requires Thermostat.Valid(l.machine)
    ensures SetMode(l, m).machine == Thermostat.SetMode(l.machine, m).state
  {
  }

  /** A reading takes both loops to the same state with the same trigger calls; the current
      loop only adds its temperature event. */
  lemma ReadingAgreesWithCore(l: Legacy, temp: real, now: int)
    ensures TempReceived(l, temp, now).state.machine == Thermostat.TempReceived(l.machine, temp, now).state
    ensures Calls(TempReceived(l, temp, now).effects) == Calls(Thermostat.TempReceived(l.machine, temp, now).effects)
  {
    var d := Thermostat.Decide(l.machine, temp, now);
    var report := Emit(TemperatureEvent(temp));
    assert Thermostat.TempReceived(l.machine, temp, now).effects == d.effects + [report];
    CallsAppend(d.effects, [report]);
    CallsSingle(report);
  }

  lemma ApplyAgreesWithCore(l: Legacy, c: Thermostat.Command)
    requires Thermostat.Valid(l.machine)
    ensures Apply(l, c).state.machine == Thermostat.Apply(l.machine, c).state
    ensures Calls(Apply(l, c).effects) == Calls(Thermostat.Apply(l.machine, c).effects)
  {
    match c {
      case SetTargetTo(v) =>
        SetTargetAgreesWithCore(l, v);
        CallsSingle(Emit(TargetEvent(v)));
      case SetModeTo(m) =>
        SetModeAgreesWithCore(l, m);
        CallsSingle(Emit(TargetEvent(l.machine.config.(mode := m).DefaultTarget())));
      case Reading(now, temp) =>
        ReadingAgreesWithCore(l, temp, now);
    }
  }

  /** From a valid state, the earlier loop reaches the same states as the current one and
      makes the same trigger calls, to the same equipment and in the same order; only the
      events differ. */
  lemma {:induction false} RunAgreesWithCore(l: Legacy, cs: seq<Thermostat.Command>)
    requires Thermostat.Valid(l.machine)
    ensures Run(l, cs).state.machine == Thermostat.Run(l.machine, cs).state
    ensures Calls(Run(l, cs).effects) == Calls(Thermostat.Run(l.machine, cs).effects)
    decreases |cs|
  {
    if |cs| > 0 {
      var a := Apply(l, cs[0]);
      var ca := Thermostat.Apply(l.machine, cs[0]);
      ApplyAgreesWithCore(l, cs[0]);
      var b := Run(a.state, cs[1..]);
      var cb := Thermostat.Run(ca.state, cs[1..]);
      RunAgreesWithCore(a.state, cs[1..]);
      assert Run(l, cs) == Step(b.state, a.effects + b.effects);
      assert Thermostat.Run(l.machine, cs) == Thermostat.Step(cb.state, ca.effects + cb.effects);
      CallsAppend(a.effects, b.effects);
      CallsAppend(ca.effects, cb.effects);
    }
  }

  /** In particular both loops start and stop in the same pattern. */
  lemma RunSameSwitches(l: Legacy, cs: seq<Thermostat.Command>)
    requires Thermostat.Valid(l.machine)
    ensures Switches(Run(l, cs).effects) == Switches(Thermostat.Run(l.machine, cs).effects)
  {
    RunAgreesWithCore(l, cs);
    CallsKeepSwitches(Run(l, cs).effects);
    CallsKeepSwitches(Thermostat.Run(l.machine, cs).effects);
  }
}

=== FILE: root_temp_reader.dfy ===
/** The oldest temperature reader: the constructor polls the sensor once; each poll pushes a
    reading onto the bounded buffer and emits nothing; `current()` is the buffer's mean by the
    same incremental fold as the buffered reader. */
module RootTempReader {
  import opened Wrappers
  import opened Averages
  import BufferedTempReader

  datatype Reader = Reader(buffer: seq<real>, length: nat)

  /** The constructor's single poll, with the sensor's first reading. */
  function Construct(first: real, length: nat): (r: Reader)
    ensures r.length == length
    ensures length >= 1 ==> r.buffer == [first] && Current(r) == Some(first)
    ensures length == 0 ==> r.buffer == [] && Current(r) == None
  {
    var r := Reader(BufferedTempReader.Push([], first, length), length);
    assert length >= 1 ==> Sum([first]) == Sum([first][..0]) + first;
    r
  }

  /** `pollSensor`: push the reading and drop the oldest once the buffer is longer than `length`. */
  function PollSensor(r: Reader, reading: real): (r': Reader)
    ensures r'.length == r.length
    ensures |r.buffer| <= r.length ==> |r'.buffer| <= r.length
    ensures |r'.buffer| > 0 ==> r'.buffer[|r'.buffer| - 1] == reading
  {
    r.(buffer := BufferedTempReader.Push(r.buffer, reading, r.length))
  }

  /** A poll keeps the older readings in order: the new buffer is a suffix of the old buffer
      followed by the reading, so only the oldest reading can be dropped. */
  lemma PollSensorIsSuffix(r: Reader, reading: real)
    ensures var r' := PollSensor(r, reading);
            |r'.buffer| <= |r.buffer| + 1 && r'.buffer == (r.buffer + [reading])[|r.buffer| + 1 - |r'.buffer|..]
  {
    BufferedTempReader.PushIsSuffix(r.buffer, reading, r.length);
  }

  /** `current()`: the mean of the buffered readings, failing on an empty buffer. */
  function Current(r: Reader): (v: Option<real>)
    ensures v.Some? <==> |r.buffer| > 0
    ensures v.Some? ==> v.value == Mean(r.buffer)
  {
    BufferedTempReader.CurrentIsMean(r.buffer);
    BufferedTempReader.Current(r.buffer)
  }

  /** Polls in order, after construction. */
  function PollAll(r: Reader, readings: seq<real>): Reader
    decreases |readings|
  {
    if |readings| == 0 then r else PollAll(PollSensor(r, readings[0]), readings[1..])
  }

  /** After construction and any further polls the buffer holds the last min(k, length)
      readings in arrival order, so it never exceeds `length`. */
  lemma {:induction false} PollsKeepRecent(first: real, readings: seq<real>, length: nat)
    ensures PollAll(Construct(first, length), readings).buffer == BufferedTempReader.Recent([first] + readings, length)
  {
    BufferedTempReader.PushRecent([], first, length);
    assert BufferedTempReader.Recent([], length) == [];
    PollAllRecent([first], readings, length);
  }

  lemma {:induction false} PollAllRecent(history: seq<real>, readings: seq<real>, length: nat)
    ensures PollAll(Reader(BufferedTempReader.Recent(history, length), length), readings).buffer
            == BufferedTempReader.Recent(history + readings, length)
    decreases |readings|
  {
    if |readings| == 0 {
      assert history + readings == history;
    } else {
      BufferedTempReader.PushRecent(history, readings[0], length);
      assert (history + [readings[0]]) + readings[1..] == history + readings;
      PollAllRecent(history + [readings[0]], readings[1..], length);
    }
  }
}

=== FILE: thermostat.dfy ===
/** The control loop: a bang-bang thermostat with a fixed 1-degree deadband, an overshoot
    margin computed at each start, a maximum run time and a minimum rest between runs.
    Every operation is a pure step from one state to the next together with the effects it
    emits; `now` is the clock reading (milliseconds) the step observes. */
module Thermostat {
  import opened Wrappers
  import opened Configuration
  import opened Events

  /** `overshootBy` is undefined until the first start gate passes; `startTime` is present
      exactly while equipment runs; `stopTime` is absent until the first stop. */
  datatype State = State(
    config: Config,
    target: real,
    overshootBy: Option<real>,
    startTime: Option<int>,
    stopTime: Option<int>,
    currentTrigger: Equipment)

  /** The state after an operation and the effects it emitted, in order. */
  datatype Step = Step(state: State, effects: seq<Effect>)

  function Abs(x: real): real {
    if x < 0.0 then -x else x
  }

  function Min(a: real, b: real): real {
    if a <= b then a else b
  }

  predicate IsRunning(s: State) {
    s.startTime.Some?
  }

  predicate IsFirstRun(s: State) {
    s.stopTime.None?
  }

  /** The trigger a mode drives: the furnace iff Heating. */
  function TriggerFor(mode: Mode): Equipment {
    if mode == Heating then Furnace else AirConditioner
  }

  /** `targetIsWithinBounds`: the inclusive bounds check of the current range. */
  predicate TargetIsWithinBounds(range: Range, v: real) {
    range.Contains(v)
  }

  /** A request is within bounds exactly when the range contains it, and exactly then is it
      stored as it is. */
  lemma WithinBounds(range: Range, v: real)
    ensures TargetIsWithinBounds(range, v) <==> range.Contains(v)
    ensures TargetIsWithinBounds(range, v) <==> Clamp(v, range) == v
  {
  }

  /** The target `setTarget` stores for a request `v`. The source's third branch
      (`v > max`) is the only case left once the first two fail, so it is the final `else`. */
  function Clamp(v: real, range: Range): (r: real)
    ensures range.Contains(v) ==> r == v
    ensures v < range.lo ==> r == range.lo
    ensures range.lo <= v && range.hi < v ==> r == range.hi
    ensures range.WellFormed() ==> range.Contains(r)
  {
    if TargetIsWithinBounds(range, v) then v
    else if v < range.lo then range.lo
    else range.hi
  }

  /** The invariant every operation keeps: ordered ranges, a target inside the current
      mode's range, and the trigger that belongs to the current mode. */
  predicate Valid(s: State) {
    && s.config.WellFormed()
    && s.config.TargetRange().Contains(s.target)
    && s.currentTrigger == TriggerFor(s.config.mode)
  }

  /** Construction runs `setMode(configuration.Mode)` while the target is still undefined
      (so the raw comparison always differs) and before the observer list exists (so the
      target event reaches nobody): nothing is emitted. */
  function Construct(config: Config): (s: State)
    ensures s.config == config
    ensures !IsRunning(s) && IsFirstRun(s) && s.overshootBy.None?
    ensures s.currentTrigger == TriggerFor(config.mode)
    ensures config.WellFormed() ==> s.target == config.DefaultTarget() && Valid(s)
  {
    State(config, Clamp(config.DefaultTarget(), config.TargetRange()), None, None, None,
          TriggerFor(config.mode))
  }

  /** `setTarget`: the comparison is on the raw request, and the event carries the raw request. */
  function SetTarget(s: State, v: real): (r: Step)
    ensures r.state.(target := s.target) == s
    ensures v == s.target ==> r.state == s && r.effects == []
    ensures v != s.target ==> r.effects == [Emit(TargetEvent(v))]
    ensures v != s.target ==> r.state.target == Clamp(v, s.config.TargetRange())
    ensures s.config.TargetRange().Contains(v) ==> r.state.target == v
    ensures Valid(s) ==> Valid(r.state)
  {
    if v != s.target then
      Step(s.(target := Clamp(v, s.config.TargetRange())), [Emit(TargetEvent(v))])
    else
      Step(s, [])
  }

  /** `setMode`: records the mode, requests the new mode's default target and selects the
      mode's trigger; running equipment is left running. */
  function SetMode(s: State, m: Mode): (r: Step)
    ensures r.state.config == s.config.(mode := m)
    ensures r.state.currentTrigger == TriggerFor(m)
    ensures r.state.startTime == s.startTime && r.state.stopTime == s.stopTime
    ensures r.state.overshootBy == s.overshootBy
    ensures s.config.WellFormed() ==> r.state.target == r.state.config.DefaultTarget() && Valid(r.state)
    ensures var d := s.config.(mode := m).DefaultTarget();
            r.effects == if d == s.target then [] else [Emit(TargetEvent(d))]
  {
    var s1 := s.(config := s.config.(mode := m));
    var t := SetTarget(s1, s1.config.DefaultTarget());
    Step(t.state.(currentTrigger := TriggerFor(m)), t.effects)
  }

  /** A reading outside the deadband on the side the equipment corrects. */
  predicate FavoursStart(s: State, temp: real) {
    if s.config.mode == Heating then temp < s.target - 1.0 else temp > s.target + 1.0
  }

  /** A reading past the overshoot margin; false while the margin is still undefined. */
  predicate FavoursStop(s: State, temp: real) {
    && s.overshootBy.Some?
    && if s.config.mode == Heating then temp >= s.target + s.overshootBy.value
       else temp <= s.target - s.overshootBy.value
  }

  /** The failsafe: running for strictly longer than `maxRunTime`. */
  predicate RunTooLong(s: State, now: int) {
    IsRunning(s) && now - s.startTime.value > s.config.maxRunTime
  }

  /** The start gate: never stopped, or stopped strictly longer than `minDelayBetweenRuns` ago. */
  predicate MayStart(s: State, now: int) {
    IsFirstRun(s) || now - s.stopTime.value > s.config.minDelayBetweenRuns
  }

  /** The overshoot margin for a run started at `temp`. */
  function OvershootFor(s: State, temp: real): (m: real)
    ensures m <= s.config.maxOvershootTemp
    ensures m <= s.target - temp || m <= temp - s.target
    ensures m == s.config.maxOvershootTemp || m == Abs(s.target - temp)
  {
    Min(Abs(s.target - temp), s.config.maxOvershootTemp)
  }

  /** `startTrigger`: acts only when idle. */
  function StartTrigger(s: State, now: int): (r: Step)
    ensures IsRunning(r.state)
    ensures IsRunning(s) ==> r == Step(s, [])
    ensures !IsRunning(s) ==> r.state.startTime == Some(now) && r.state.(startTime := s.startTime) == s
    ensures !IsRunning(s) ==> r.effects == SwitchOn(s.currentTrigger, s.config.mode)
    ensures SwitchesFrom(IsRunning(s), r.effects, IsRunning(r.state)) && OnOff(r.effects) == Switches(r.effects)
    ensures OnlySwitching(r.effects)
  {
    if !IsRunning(s) then
      SwitchOnTraces(s.currentTrigger, s.config.mode);
      Step(s.(startTime := Some(now)), SwitchOn(s.currentTrigger, s.config.mode))
    else
      assert Switches([]) == [] && OnOff([]) == [];
      Step(s, [])
  }

  /** `stopTrigger`: acts only when running, and records the stop time. */
  function StopTrigger(s: State, now: int): (r: Step)
    ensures !IsRunning(r.state)
    ensures !IsRunning(s) ==> r == Step(s, [])
    ensures IsRunning(s) ==> r.state.stopTime == Some(now) && r.state.(startTime := s.startTime, stopTime := s.stopTime) == s
    ensures IsRunning(s) ==> r.effects == SwitchOff(s.currentTrigger, s.config.mode)
    ensures SwitchesFrom(IsRunning(s), r.effects, IsRunning(r.state)) && OnOff(r.effects) == Switches(r.effects)
    ensures OnlySwitching(r.effects)
  {
    if IsRunning(s) then
      SwitchOffTraces(s.currentTrigger, s.config.mode);
      Step(s.(startTime := None, stopTime := Some(now)), SwitchOff(s.currentTrigger, s.config.mode))
    else
      assert Switches([]) == [] && OnOff([]) == [];
      Step(s, [])
  }

  /** `isRunning()`: set by every start, cleared by every stop. */
  lemma RunningFlag(s: State, now: int)
    ensures IsRunning(StartTrigger(s, now).state)
    ensures !IsRunning(StopTrigger(s, now).state)
    ensures IsRunning(s) ==> StartTrigger(s, now).state.startTime == s.startTime
  {
  }

  /** `isFirstRun()`: true until the first stop; a start leaves it as it was. */
  lemma FirstRunFlag(s: State, now: int)
    ensures IsFirstRun(StartTrigger(s, now).state) == IsFirstRun(s)
    ensures IsFirstRun(StopTrigger(s, now).state) <==> IsFirstRun(s) && !IsRunning(s)
  {
  }

  /** `tryStartTrigger`: the failsafe stop first, then the start gate; when the gate passes the
      overshoot margin is recomputed even if the equipment is already running. */
  function TryStartTrigger(s: State, temp: real, now: int): (r: Step)
    ensures r.state.config == s.config && r.state.target == s.target && r.state.currentTrigger == s.currentTrigger
    ensures SwitchesFrom(IsRunning(s), r.effects, IsRunning(r.state)) && OnOff(r.effects) == Switches(r.effects)
    ensures OnlySwitching(r.effects)
  {
    var failsafe := if RunTooLong(s, now) then StopTrigger(s, now) else Step(s, []);
    var s1 := failsafe.state;
    if MayStart(s1, now) then
      var started := StartTrigger(s1.(overshootBy := Some(OvershootFor(s1, temp))), now);
      SwitchesFromAppend(IsRunning(s), failsafe.effects, IsRunning(s1), started.effects, IsRunning(started.state));
      SwitchesAppend(failsafe.effects, started.effects);
      OnOffAppend(failsafe.effects, started.effects);
      OnlySwitchingAppend(failsafe.effects, started.effects);
      Step(started.state, failsafe.effects + started.effects)
    else
      failsafe
  }

  /** The hysteresis decision of `tempReceived`, without the temperature event. */
  function Decide(s: State, temp: real, now: int): (r: Step)
    ensures r.state.config == s.config && r.state.target == s.target && r.state.currentTrigger == s.currentTrigger
    ensures SwitchesFrom(IsRunning(s), r.effects, IsRunning(r.state)) && OnOff(r.effects) == Switches(r.effects)
    ensures OnlySwitching(r.effects)
  {
    if FavoursStart(s, temp) then TryStartTrigger(s, temp, now)
    else if FavoursStop(s, temp) then StopTrigger(s, now)
    else Step(s, [])
  }

  /** `tempReceived`: decide, then emit exactly one temperature event, after any on/off event. */
  function TempReceived(s: State, temp: real, now: int): (r: Step)
    ensures |r.effects| >= 1 && r.effects[|r.effects| - 1] == Emit(TemperatureEvent(temp))
    ensures forall i :: 0 <= i < |r.effects| - 1 ==> !IsTemperatureEvent(r.effects[i])
    ensures r.state.config == s.config && r.state.target == s.target && r.state.currentTrigger == s.currentTrigger
    ensures SwitchesFrom(IsRunning(s), r.effects, IsRunning(r.state)) && OnOff(r.effects) == Switches(r.effects)
  {
    var d := Decide(s, temp, now);
    var tail := [Emit(TemperatureEvent(temp))];
    ReportTraces(temp);
    SwitchesAppend(d.effects, tail);
    OnOffAppend(d.effects, tail);
    var fx := d.effects + tail;
    assert Switches(fx) == Switches(d.effects) + [] == Switches(d.effects);
    assert OnOff(fx) == OnOff(d.effects) + [] == OnOff(d.effects);
    assert forall i :: 0 <= i < |fx| - 1 ==> !IsTemperatureEvent(fx[i]) by {
      forall i | 0 <= i < |fx| - 1
        ensures !IsTemperatureEvent(fx[i])
      {
        assert fx[i] == d.effects[i] && d.effects[i] in d.effects;
      }
    }
    Step(d.state, fx)
  }

  /** One input to the loop: a host request or a smoothed reading taken at time `at`. */
  datatype Command =
    | SetTargetTo(value: real)
    | SetModeTo(mode: Mode)
    | Reading(at: int, temp: real)

  function Apply(s: State, c: Command): (r: Step)
    ensures SwitchesFrom(IsRunning(s), r.effects, IsRunning(r.state)) && OnOff(r.effects) == Switches(r.effects)
    ensures Valid(s) ==> Valid(r.state)
  {
    match c
    case SetTargetTo(v) =>
      var r := SetTarget(s, v);
      assert r.effects == [] || r.effects == [Emit(TargetEvent(v))];
      r
    case SetModeTo(m) =>
      var r := SetMode(s, m);
      assert r.effects == [] || r.effects == [Emit(TargetEvent(r.state.config.DefaultTarget()))];
      r
    case Reading(now, temp) => TempReceived(s, temp, now)
  }

  /** A run of the loop over a sequence of inputs, with the effects of every step in order. */
  function Run(s: State, cs: seq<Command>): (r: Step)
    ensures SwitchesFrom(IsRunning(s), r.effects, IsRunning(r.state)) && OnOff(r.effects) == Switches(r.effects)
    ensures Valid(s) ==> Valid(r.state)
    decreases |cs|
  {
    if |cs| == 0 then Step(s, [])
    else
      var a := Apply(s, cs[0]);
      var b := Run(a.state, cs[1..]);
      SwitchesFromAppend(IsRunning(s), a.effects, IsRunning(a.state), b.effects, IsRunning(b.state));
      SwitchesAppend(a.effects, b.effects);
      OnOffAppend(a.effects, b.effects);
      Step(b.state, a.effects + b.effects)
  }

  /** A whole session from construction: the inputs, then the completion signal when the
      temperature stream ends. Trigger calls go start, stop, start, ..., and so do the on/off events. */
  function Session(config: Config, cs: seq<Command>): (r: Step)
    ensures |r.effects| >= 1 && r.effects[|r.effects| - 1] == Complete
    ensures var sw := Switches(r.effects);
            forall i :: 0 <= i < |sw| ==> sw[i] == (i % 2 == 0)
    ensures OnOff(r.effects) == Switches(r.effects)
    ensures config.WellFormed() ==> Valid(r.state)
  {
    var run := Run(Construct(config), cs);
    SwitchesAppend(run.effects, [Complete]);
    OnOffAppend(run.effects, [Complete]);
    assert Switches([Complete]) == [] && OnOff([Complete]) == [];
    AlternatingFromIdle(Switches(run.effects));
    Step(run.state, run.effects + [Complete])
  }
}

=== FILE: thermostat_properties.dfy ===
/** Properties of the control loop that relate several operations or name the outcome of
    each hysteresis branch. */
module ThermostatProperties {
  import opened Wrappers
  import opened Configuration
  import opened Events
  import opened Thermostat

  /** Heating: below target - 1 a start is attempted; otherwise at or above target + overshoot
      running equipment stops; otherwise nothing changes. Every reading ends with its
      temperature event. */
  lemma HeatingRules(s: State, temp: real, now: int)
    requires s.config.mode == Heating
    ensures var r := TempReceived(s, temp, now);
            temp < s.target - 1.0 && !IsRunning(s) && MayStart(s, now) ==>
              && r.state == s.(overshootBy := Some(Min(s.target - temp, s.config.maxOvershootTemp)),
                               startTime := Some(now))
              && r.effects == SwitchOn(s.currentTrigger, Heating) + [Emit(TemperatureEvent(temp))]
    ensures var r := TempReceived(s, temp, now);
            temp < s.target - 1.0 && !IsRunning(s) && !MayStart(s, now) ==>
              r == Step(s, [Emit(TemperatureEvent(temp))])
    ensures var r := TempReceived(s, temp, now);
            s.target - 1.0 <= temp && s.overshootBy.Some? && temp >= s.target + s.overshootBy.value && IsRunning(s) ==>
              && r.state == s.(startTime := None, stopTime := Some(now))
              && r.effects == SwitchOff(s.currentTrigger, Heating) + [Emit(TemperatureEvent(temp))]
    ensures var r := TempReceived(s, temp, now);
            s.target - 1.0 <= temp && (!IsRunning(s) || s.overshootBy.None? || temp < s.target + s.overshootBy.value) ==>
              r == Step(s, [Emit(TemperatureEvent(temp))])
  {
    ReadingOutcome(s, temp, now);
    if temp < s.target - 1.0 {
      assert OvershootFor(s, temp) == Min(s.target - temp, s.config.maxOvershootTemp);
    }
  }

  /** Cooling mirrors heating: above target + 1 a start is attempted; otherwise at or below
      target - overshoot running equipment stops; otherwise nothing changes. */
  lemma CoolingRules(s: State, temp: real, now: int)
    requires s.config.mode == Cooling
    ensures var r := TempReceived(s, temp, now);
            temp > s.target + 1.0 && !IsRunning(s) && MayStart(s, now) ==>
              && r.state == s.(overshootBy := Some(Min(temp - s.target, s.config.maxOvershootTemp)),
                               startTime := Some(now))
              && r.effects == SwitchOn(s.currentTrigger, Cooling) + [Emit(TemperatureEvent(temp))]
    ensures var r := TempReceived(s, temp, now);
            temp > s.target + 1.0 && !IsRunning(s) && !MayStart(s, now) ==>
              r == Step(s, [Emit(TemperatureEvent(temp))])
    ensures var r := TempReceived(s, temp, now);
            temp <= s.target + 1.0 && s.overshootBy.Some? && temp <= s.target - s.overshootBy.value && IsRunning(s) ==>
              && r.state == s.(startTime := None, stopTime := Some(now))
              && r.effects == SwitchOff(s.currentTrigger, Cooling) + [Emit(TemperatureEvent(temp))]
    ensures var r := TempReceived(s, temp, now);
            temp <= s.target + 1.0 && (!IsRunning(s) || s.overshootBy.None? || temp > s.target - s.overshootBy.value) ==>
              r == Step(s, [Emit(TemperatureEvent(temp))])
  {
    ReadingOutcome(s, temp, now);
    if temp > s.target + 1.0 {
      assert OvershootFor(s, temp) == Min(temp - s.target, s.config.maxOvershootTemp);
    }
  }

  /** The three outcomes of a reading from an idle or running state, independent of mode. */
  lemma ReadingOutcome(s: State, temp: real, now: int)
    ensures var r := TempReceived(s, temp, now);
            FavoursStart(s, temp) && !IsRunning(s) && MayStart(s, now) ==>
              && r.state == s.(overshootBy := Some(OvershootFor(s, temp)), startTime := Some(now))
              && r.effects == SwitchOn(s.currentTrigger, s.config.mode) + [Emit(TemperatureEvent(temp))]
    ensures var r := TempReceived(s, temp, now);
            FavoursStart(s, temp) && !IsRunning(s) && !MayStart(s, now) ==>
              r == Step(s, [Emit(TemperatureEvent(temp))])
    ensures var r := TempReceived(s, temp, now);
            !FavoursStart(s, temp) && FavoursStop(s, temp) && IsRunning(s) ==>
              && r.state == s.(startTime := None, stopTime := Some(now))
              && r.effects == SwitchOff(s.currentTrigger, s.config.mode) + [Emit(TemperatureEvent(temp))]
    ensures var r := TempReceived(s, temp, now);
            !FavoursStart(s, temp) && (!IsRunning(s) || !FavoursStop(s, temp)) ==>
              r == Step(s, [Emit(TemperatureEvent(temp))])
  {
    var r := TempReceived(s, temp, now);
    var d := Decide(s, temp, now);
    assert r == Step(d.state, d.effects + [Emit(TemperatureEvent(temp))]);
    if FavoursStart(s, temp) {
      assert d == TryStartTrigger(s, temp, now);
      if !IsRunning(s) {
        assert !RunTooLong(s, now);
        if MayStart(s, now) {
          var s1 := s.(overshootBy := Some(OvershootFor(s, temp)));
          assert d == Step(StartTrigger(s1, now).state, [] + StartTrigger(s1, now).effects);
        }
      }
    } else if FavoursStop(s, temp) {
      assert d == StopTrigger(s, now);
    }
  }

  /** While running, a start-favouring reading that passes the gate recomputes the overshoot
      margin but starts nothing: the equipment keeps its start time. */
  lemma OvershootRecomputedWhileRunning(s: State, temp: real, now: int)
    requires IsRunning(s) && FavoursStart(s, temp) && !RunTooLong(s, now) && MayStart(s, now)
    ensures var r := TempReceived(s, temp, now);
            && r.state == s.(overshootBy := Some(OvershootFor(s, temp)))
            && r.effects == [Emit(TemperatureEvent(temp))]
  {
  }

  /** Before the first start the margin is undefined and the stop comparison is false: a
      reading that does not favour a start changes nothing. */
  lemma UndefinedOvershootNeverStops(s: State, temp: real, now: int)
    requires s.overshootBy.None? && !FavoursStart(s, temp)
    ensures TempReceived(s, temp, now) == Step(s, [Emit(TemperatureEvent(temp))])
  {
  }

  /** The failsafe: a start-favouring reading more than `maxRunTime` after the start stops the
      equipment at `now`; with a non-negative rest period it is not restarted in the same step. */
  lemma FailsafeStops(s: State, temp: real, now: int)
    requires FavoursStart(s, temp) && RunTooLong(s, now) && s.config.minDelayBetweenRuns >= 0
    ensures var r := TempReceived(s, temp, now);
            && !IsRunning(r.state)
            && r.state.stopTime == Some(now)
            && r.effects == SwitchOff(s.currentTrigger, s.config.mode) + [Emit(TemperatureEvent(temp))]
  {
  }

  /** `tryStartTrigger`: the failsafe stop first; then, iff the equipment has never stopped or
      stopped more than `minDelayBetweenRuns` ago, the margin is recomputed from this reading
      and the equipment runs; otherwise nothing more happens. */
  lemma StartGate(s: State, temp: real, now: int)
    ensures var r := TryStartTrigger(s, temp, now);
            RunTooLong(s, now) ==> r.state.stopTime == Some(now)
    ensures var r := TryStartTrigger(s, temp, now);
            var f := if RunTooLong(s, now) then StopTrigger(s, now).state else s;
            MayStart(f, now) ==> IsRunning(r.state) && r.state.overshootBy == Some(OvershootFor(s, temp))
    ensures var r := TryStartTrigger(s, temp, now);
            var f := if RunTooLong(s, now) then StopTrigger(s, now).state else s;
            !MayStart(f, now) ==> r.state == f
  {
    var f := if RunTooLong(s, now) then StopTrigger(s, now).state else s;
    assert OvershootFor(f, temp) == OvershootFor(s, temp);
  }

  /** Within the rest period the start gate stays shut, so `tryStartTrigger` does at most the
      failsafe stop. */
  lemma GateShutAfterRecentStop(s: State, temp: real, now: int)
    requires s.stopTime.Some? && now - s.stopTime.value <= s.config.minDelayBetweenRuns
    requires s.config.minDelayBetweenRuns >= 0
    ensures TryStartTrigger(s, temp, now) == if RunTooLong(s, now) then StopTrigger(s, now) else Step(s, [])
  {
    var failsafe := if RunTooLong(s, now) then StopTrigger(s, now) else Step(s, []);
    assert !MayStart(failsafe.state, now);
  }

  /** Within the rest period the decision either does nothing or stops the equipment. */
  lemma DecideAfterRecentStop(s: State, temp: real, now: int)
    requires s.stopTime.Some? && now - s.stopTime.value <= s.config.minDelayBetweenRuns
    requires s.config.minDelayBetweenRuns >= 0
    ensures var d := Decide(s, temp, now);
            && (d.effects == [] || d.effects == SwitchOff(s.currentTrigger, s.config.mode))
            && (!IsRunning(s) ==> !IsRunning(d.state))
  {
    if FavoursStart(s, temp) {
      GateShutAfterRecentStop(s, temp, now);
    }
  }

  /** After a stop at `t`, no reading at a time `now <= t + minDelayBetweenRuns` starts the
      equipment, whatever the temperature. */
  lemma NoRestartTooSoon(s: State, temp: real, now: int)
    requires s.stopTime.Some? && now - s.stopTime.value <= s.config.minDelayBetweenRuns
    requires s.config.minDelayBetweenRuns >= 0
    ensures forall e :: e in TempReceived(s, temp, now).effects ==> !e.TriggerStart?
    ensures !IsRunning(s) ==> !IsRunning(TempReceived(s, temp, now).state)
  {
    DecideAfterRecentStop(s, temp, now);
    var d := Decide(s, temp, now);
    assert TempReceived(s, temp, now).effects == d.effects + [Emit(TemperatureEvent(temp))];
  }

  /** Changing mode never stops running equipment, and the next stop goes to the new mode's
      trigger: a furnace running when the mode becomes Cooling is never told to stop. */
  lemma SetModeLeavesEquipmentRunning(s: State, m: Mode, now: int)
    requires IsRunning(s)
    ensures var t := SetMode(s, m).state;
            && IsRunning(t)
            && t.startTime == s.startTime
            && StopTrigger(t, now).effects == SwitchOff(TriggerFor(m), m)
  {
  }

  lemma FurnaceLeftRunningAfterSwitchToCooling(s: State, now: int)
    requires IsRunning(s) && s.currentTrigger == Furnace
    ensures var stop := StopTrigger(SetMode(s, Cooling).state, now);
            && TriggerStop(Furnace) !in stop.effects
            && stop.effects[0] == TriggerStop(AirConditioner)
  {
    SetModeLeavesEquipmentRunning(s, Cooling, now);
  }

  /** Re-requesting an in-range target emits nothing the second time; re-requesting an
      out-of-range one emits its event again, since the raw request never equals the
      clamped target. */
  lemma SetTargetRepeated(s: State, v: real)
    requires s.config.WellFormed()
    ensures var once := SetTarget(s, v);
            var twice := SetTarget(once.state, v);
            s.config.TargetRange().Contains(v) ==> twice == Step(once.state, [])
    ensures var once := SetTarget(s, v);
            var twice := SetTarget(once.state, v);
            !s.config.TargetRange().Contains(v) && v != s.target ==>
              twice == Step(once.state, [Emit(TargetEvent(v))])
  {
  }
}

=== FILE: windowed_temp_reader.dfy ===
/** The current temperature reader: the sensor's readings cut into sliding windows of `n`
    readings advancing by one, each complete window reduced to its sum divided by the fixed
    window size. Only complete windows are modelled. */
module WindowedTempReader {
  import opened Averages

  /** The mean of the window of `n` readings starting at reading `k`. */
  function WindowMean(xs: seq<real>, k: nat, n: nat): real
    requires n >= 1 && k + n <= |xs|
  {
    Mean(xs[k..k + n])
  }

  /** `start()`: the smoothed stream for the raw readings `xs`, one output per complete window;
      nothing comes out before the n-th reading. */
  function Start(xs: seq<real>, n: nat): (r: seq<real>)
    requires n >= 1
    ensures |r| == if |xs| >= n then |xs| - n + 1 else 0
    decreases |xs|
  {
    if |xs| < n then []
    else [WindowMean(xs, 0, n)] + Start(xs[1..], n)
  }

  /** Output k is the mean of readings k .. k + n - 1. */
  lemma {:induction false} StartAt(xs: seq<real>, n: nat, k: nat)
    requires n >= 1 && k + n <= |xs|
    ensures Start(xs, n)[k] == WindowMean(xs, k, n)
    decreases k
  {
    if k > 0 {
      StartAt(xs[1..], n, k - 1);
      TailWindow(xs, k, n);
    }
  }

  /** Every output of `start()` is the mean of its window. */
  lemma StartWindows(xs: seq<real>, n: nat)
    requires n >= 1
    ensures forall k :: 0 <= k < |Start(xs, n)| ==> Start(xs, n)[k] == WindowMean(xs, k, n)
  {
    forall k | 0 <= k < |Start(xs, n)|
      ensures Start(xs, n)[k] == WindowMean(xs, k, n)
    {
      StartAt(xs, n, k);
    }
  }

  /** A stream of the right length whose every output is its window's mean is `start()`. */
  lemma SameAsStart(out: seq<real>, xs: seq<real>, n: nat)
    requires n >= 1
    requires |out| == |Start(xs, n)|
    requires forall k :: 0 <= k < |out| ==> out[k] == WindowMean(xs, k, n)
    ensures out == Start(xs, n)
  {
    StartWindows(xs, n);
  }

  /** The pipeline as written: a window opens at every reading, each complete window is
      reduced with `acc + num` seeded by its first reading, and the sum is divided by `n`. */
  method ReduceWindows(xs: seq<real>, n: nat) returns (out: seq<real>)
    requires n >= 1
    ensures out == Start(xs, n)
  {
    out := [];
    var k := 0;
    while k + n <= |xs|
      invariant |out| == k
      invariant k <= if |xs| >= n then |xs| - n + 1 else 0
      invariant forall i :: 0 <= i < k ==> out[i] == WindowMean(xs, i, n)
      decreases |xs| - k
    {
      SumExtend(xs, k, k);
      var acc := xs[k];
      var j := 1;
      while j < n
        invariant 1 <= j <= n
        invariant acc == Sum(xs[k..k + j])
      {
        SumExtend(xs, k, k + j);
        acc := acc + xs[k + j];
        j := j + 1;
      }
      out := out + [acc / (n as real)];
      k := k + 1;
    }
    SameAsStart(out, xs, n);
  }

  /** A constant sensor yields a constant smoothed stream. */
  lemma ConstantReadings(xs: seq<real>, n: nat, c: real)
    requires n >= 1
    requires forall i :: 0 <= i < |xs| ==> xs[i] == c
    ensures forall k :: 0 <= k < |Start(xs, n)| ==> Start(xs, n)[k] == c
  {
    var r := Start(xs, n);
    forall k | 0 <= k < |r|
      ensures r[k] == c
    {
      StartAt(xs, n, k);
      MeanConstant(xs[k..k + n], c);
    }
  }

  /** `stop()` stops the sensor: a sensor stopped after `m` readings yields exactly the
      outputs the longer stream would have produced by then. */
  lemma StopTruncates(xs: seq<real>, m: nat, n: nat)
    requires n >= 1 && m <= |xs|
    ensures Start(xs[..m], n) == Start(xs, n)[..if m >= n then m - n + 1 else 0]
  {
    var a := Start(xs[..m], n);
    var b := Start(xs, n);
    forall k | 0 <= k < |a|
      ensures a[k] == b[k]
    {
      StartAt(xs[..m], n, k);
      StartAt(xs, n, k);
      assert xs[..m][k..k + n] == xs[k..k + n];
    }
  }
}

=== FILE: wrappers.dfy ===
/** Optional values, standing in for the source's `null`/`undefined` fields and for
    operations that fail on empty input. */
module Wrappers {

  datatype Option<+T> = None | Some(value: T)
}
